=== FILE: README.md ===
# integer-key command handler

This is a Dafny model of the controller command `integer_key` from the Private
Data Objects integer-key contract client, in `contracts/integer-key/integer-key.py`.
It covers two functions:

- **`__command_integer_key__`** parses the argument list against an argparse schema. The schema has four shared flags and ten subcommands. The function then builds the one protocol message of the chosen subcommand. That message is a quoted S-expression such as `'(inc "k" 5)`. The function hands the message to `send_to_contract`. Only `get` asks for no commit. `get_signing_key` and `attestation` may bind the result to a symbol in the shell's binding table.
- **`do_integer_key`** splits its input line into arguments and then runs the command inside a `try` that swallows every `Exception` and every `SystemExit` with an integer code that the command raises. Such a `SystemExit` whose code is not above 0 is silent. Any other of these errors prints one line that names the input.

The model has five modules:

- `Wrappers` holds `Option` and `Result`.
- `Decimal` models `str(n)` of a Python int, and the reading of `-v` as an optional sign followed by ASCII digits.
- `Protocol` holds the message as a structured `Call` (an operation and its arguments). It has `Render`, which turns a call into message text, and `Parse`, which reads the text back.
- `IntegerKey` covers the argparse schema as a check of a `Namespace` of optional flag values, the typed `Command`, the extraction of attestation fields, and `Message`. `Message` is `Render` of the call each command makes.
- `Controller` holds the class `Shell`, whose fields are the binding table, the log of submissions and the log of printed diagnostics. Its methods `CommandIntegerKey` and `DoIntegerKey` are proved against the functions `Sent`, `Rebind`, `Escape` and `Report`. Lemmas about those functions state the handler's guarantees.

Three external pieces are parameters of the model:

- `send_to_contract` is a `Reply`: it answers with a result, possibly `None`, raises an exception, or raises `SystemExit` with a code.
- The parsed attestation expression is an `Attestation`: either unparsable, or a sequence of fields. Each field has its printed text and, if it has one, its `dict` mapping.
- The parse of `shlex.split` and `bindings.expand` output is a `Namespace`.

Some behaviours of the code worth stating plainly:

- The code registers ten subcommands.
- Every message starts with a quote: `'(op ...)`.
- A command line without a subcommand parses, matches no branch and submits nothing (`Controller.NoSubcommandNoEffect`).
- A `SystemExit` with an integer code that is not above zero is silent (`se.code > 0`), whether argparse or `send_to_contract` raised it.

## Model

| member | source | states |
|---|---|---|
| Decimal.ParseDecimal | contracts/integer-key/integer-key.py:43-51 | `type=int` on `-v`: an accepted text is non-empty, and a negative value comes from a text starting with `-`. `Decimal.DecimalRoundTrip` and `Decimal.CanonicalRoundTrip` tie it to `IntToDecimal`. |
| Decimal.IntToDecimal | contracts/integer-key/integer-key.py:86 | The decimal text of an integer has at least one character. It starts with `-` exactly when the integer is negative, and the rest is digits. |
| Decimal.NatToDecimal | contracts/integer-key/integer-key.py:86 | The text of a natural number is all digits and non-empty. It starts with `0` only for zero. |
| Decimal.DecimalRoundTrip | contracts/integer-key/integer-key.py:43-51 | Reading back the decimal text of any integer with `type=int` gives that integer, and the text is canonical. |
| Decimal.CanonicalRoundTrip | contracts/integer-key/integer-key.py:43-51 | Every canonical decimal text reads as an integer whose text is exactly the original. |
| Protocol.Render | contracts/integer-key/integer-key.py:79-138 | Every message opens with `'(` and closes with `)`. `Protocol.ParseRender` shows the text determines the call. |
| Protocol.ParseRender | contracts/integer-key/integer-key.py:78-121 | A call whose operation has no space and whose arguments are quote-free strings or integers is read back from its rendered text. |
| Protocol.ParseRenderArgs | contracts/integer-key/integer-key.py:86-117 | The rendered argument list of quote-free strings and integers is read back as the same arguments. |
| IntegerKey.IntArg | contracts/integer-key/integer-key.py:43-51 | `-v` reads as the integer its decimal text denotes, and anything else exits with status 2. |
| IntegerKey.Build | contracts/integer-key/integer-key.py:38-74 | A built command belongs to the subcommand it was built for. It fails exactly when `create`, `inc` or `dec` is given a `-v` that does not read as an integer, and then exits with status 2. Otherwise `-k` is the key and `-v` the integer it reads as, 0 for `create` without `-v`. |
| IntegerKey.ParseOptions | contracts/integer-key/integer-key.py:30-74 | `-h` exits with status 0. Every other failure exits with status 2. A success keeps the shared flags. With no subcommand no subcommand flag was given. With a subcommand, its name is the one registered, all its required flags are present, and no flag outside it is given. `IntegerKey.ParseUnparse` gives the converse. `IntegerKey.NonIntegerValueRefused` and `IntegerKey.ParsedValueIsInt` state the `type=int` check on `-v`. |
| IntegerKey.NthField | contracts/integer-key/integer-key.py:125-127 | `attestation.nth(i)` gives field i exactly when the attestation parsed and has it. Otherwise the fault says whether the text did not parse or the field is missing. |
| IntegerKey.AssetKey | contracts/integer-key/integer-key.py:125 | `dict(attestation.nth(i).value)['key']` succeeds exactly when field i exists and maps `"key"`, and gives that entry. |
| IntegerKey.FieldText | contracts/integer-key/integer-key.py:126-127 | `str(attestation.nth(i))` succeeds exactly when field i exists, and gives its printed text. |
| IntegerKey.Request | contracts/integer-key/integer-key.py:78-139 | Only `disburse` and `exchange` can fail to build their call, and only with an attestation fault, never an exit. `IntegerKey.DisburseTemplate` and `IntegerKey.ExchangeSucceeds` say exactly when. |
| IntegerKey.Message | contracts/integer-key/integer-key.py:78-139 | A command has a message exactly when its call can be built, and the message is bracketed by `'(` and `)`. The template lemmas below give each text. |
| IntegerKey.ValueTemplates | contracts/integer-key/integer-key.py:85-97 | `create`, `inc` and `dec` send exactly `'(create "K" V)`, `'(inc "K" V)` and `'(dec "K" V)`, with V in decimal. |
| IntegerKey.ValueTemplate | contracts/integer-key/integer-key.py:85-97 | The same three templates, for an operation name given as a parameter. |
| IntegerKey.SigningKeyTemplate | contracts/integer-key/integer-key.py:78-79 | `get_signing_key` sends exactly `'(get-public-signing-key)`, whatever the symbol. |
| IntegerKey.GetTemplate | contracts/integer-key/integer-key.py:100-103 | `get` sends exactly `'(get-value "K")`. |
| IntegerKey.TransferTemplate | contracts/integer-key/integer-key.py:106-108 | `transfer` sends exactly `'(transfer-ownership "K" "O")`. |
| IntegerKey.EscrowTemplate | contracts/integer-key/integer-key.py:111-113 | `escrow` sends exactly `'(escrow "K" "A")`. |
| IntegerKey.EscrowAttestationTemplate | contracts/integer-key/integer-key.py:116-118 | `attestation` sends exactly `'(escrow-attestation "K")`, whatever the symbol. |
| IntegerKey.DisburseTemplate | contracts/integer-key/integer-key.py:123-129 | `disburse` has a message exactly when the attestation parses, has three fields and field 0 maps `"key"`. The message is `'(disburse "<key>" <field 1> <field 2>)`. |
| IntegerKey.ExchangeSucceeds | contracts/integer-key/integer-key.py:132-138 | `exchange` has a message exactly when the attestation parses, has four fields, and fields 0 and 1 both map `"key"`. |
| IntegerKey.ExchangeRequest | contracts/integer-key/integer-key.py:133-137 | From a well-formed attestation, `exchange` takes the two asset keys quoted and fields 2 and 3 raw. |
| IntegerKey.ExchangeText | contracts/integer-key/integer-key.py:138 | The text of that call is `'(exchange-ownership "<offered>" "<maxbid>" <deps> <sig>)`. |
| IntegerKey.ExchangeTemplate | contracts/integer-key/integer-key.py:132-139 | From a well-formed attestation, `exchange` sends exactly `'(exchange-ownership "<offered>" "<maxbid>" <field 2> <field 3>)`. |
| IntegerKey.RequestReadable | contracts/integer-key/integer-key.py:78-121 | Every command other than disburse and exchange has a call. With quote-free strings, that call can be read back from its text. |
| IntegerKey.MessageDecodes | contracts/integer-key/integer-key.py:78-121 | For those commands, parsing the message gives back the command's call. |
| IntegerKey.MessageInjective | contracts/integer-key/integer-key.py:78-121 | Two such commands with equal messages are equal, apart from the binding symbol, which the message does not carry. |
| IntegerKey.UnescapedQuoteCollision | contracts/integer-key/integer-key.py:106-107 | Keys are not escaped. For any strings a, b and c, the different transfers with key `a" "b` and owner `c`, and with key `a` and owner `b" "c`, send the same message. |
| IntegerKey.LookupName | contracts/integer-key/integer-key.py:36-72 | Each subcommand is found under its own registered name. |
| IntegerKey.LookupSubcommands | contracts/integer-key/integer-key.py:36-72 | argparse accepts exactly the names some subcommand is registered under, and maps each to the subcommand of that name. |
| IntegerKey.UnparseShared | contracts/integer-key/integer-key.py:30-36 | Written-out options have no help request, keep the shared flags and name the subcommand. |
| IntegerKey.UnparseFlags | contracts/integer-key/integer-key.py:38-72 | A command's written-out flags are the required flags of its subcommand, plus `-v` for `create` and a given `-s`. |
| IntegerKey.BuildUnparse | contracts/integer-key/integer-key.py:38-74 | A command's written-out flags satisfy its subcommand's schema, and they build back to the same command. |
| IntegerKey.ParseUnparse | contracts/integer-key/integer-key.py:30-74 | Every result of `parse_args` survives being written out as options and parsed again. |
| IntegerKey.KeyIsRequired | contracts/integer-key/integer-key.py:41-66 | Every subcommand that declares `-k` exits with status 2 when `-k` is missing. |
| IntegerKey.ValueIsRequired | contracts/integer-key/integer-key.py:45-51 | `inc` and `dec` exit with status 2 when `-v` is missing. |
| IntegerKey.CreateValueDefaultsToZero | contracts/integer-key/integer-key.py:41-86 | `create -k K` without `-v` parses to `create` with value 0 and sends `'(create "K" 0)`. |
| IntegerKey.NonIntegerValueRefused | contracts/integer-key/integer-key.py:43-51 | `type=int`: `create`, `inc` or `dec` with a `-v` that does not read as an integer exits with status 2. |
| IntegerKey.ParsedValueIsInt | contracts/integer-key/integer-key.py:41-51 | A parsed `create`, `inc` or `dec` carries the `-k` given and the integer `-v` reads as, or 0 for `create` without `-v`. |
| IntegerKey.UnknownSubcommand | contracts/integer-key/integer-key.py:36-74 | A subcommand name outside the ten exits with status 2. |
| Controller.Outcome | contracts/integer-key/integer-key.py:80 | A reply raises nothing exactly when it answers. An exception becomes a submission failure, and a `SystemExit` becomes an exit with the same code. |
| Controller.Sent | contracts/integer-key/integer-key.py:76-140 | An invocation submits at most once, and only when its options parse to a subcommand. `Controller.AtMostOneSubmission` and `Controller.SubmissionContents` say when and what. |
| Controller.Rebind | contracts/integer-key/integer-key.py:81-82 | The binding table keeps every symbol, and is unchanged unless `send_to_contract` answered. `Controller.BindingRule` gives the full rule. |
| Controller.Escape | contracts/integer-key/integer-key.py:74-139 | After a submission, the error raised is exactly the one `send_to_contract` raised. Without one, it is never a submission failure, and an exit can only come from parsing. |
| Controller.Report | contracts/integer-key/integer-key.py:154-160 | At most one line is printed. None is printed exactly when nothing was raised or the exit code is 0 or below. A printed line names the input and the error. |
| Controller.Shell.Send | contracts/integer-key/integer-key.py:80 | Logs exactly one submission with the enclave, save file, message, quiet, wait and commit. Returns the error the reply raises, and the answer. |
| Controller.Shell.Bind | contracts/integer-key/integer-key.py:82 | Maps the symbol to the value, and changes nothing else. |
| Controller.Shell.CommandIntegerKey | contracts/integer-key/integer-key.py:26-140 | The new submission log is the old one plus `Sent`. The new binding table is `Rebind` of the old one. Diagnostics are unchanged, and the error raised is `Escape`. |
| Controller.Shell.DoIntegerKey | contracts/integer-key/integer-key.py:151-160 | For arguments already split, the same submissions and bindings, with no error of the command escaping. The diagnostics grow by `Report` of the error raised inside. |
| Controller.AtMostOneSubmission | contracts/integer-key/integer-key.py:76-140 | An invocation submits at most once. It submits exactly once when it parses to a subcommand whose message can be built. |
| Controller.SubmissionContents | contracts/integer-key/integer-key.py:76-103 | The submission carries the command's message and the shared flags. Its commit flag is false exactly for `get`. |
| Controller.BindingRule | contracts/integer-key/integer-key.py:78-121 | No binding is removed. A binding changes only for `get_signing_key`/`attestation`, at the given non-empty symbol, to a non-empty answer. With a non-empty symbol and answer, it does change. |
| Controller.NoPartialApplication | contracts/integer-key/integer-key.py:76-139 | No error binds anything. An error while `send_to_contract` answers leaves no submission. An error after a submission is the one `send_to_contract` raised, and a submission failure always comes with one logged submission. |
| Controller.NoSubcommandNoEffect | contracts/integer-key/integer-key.py:36-140 | Without a subcommand, nothing is submitted, bound or raised. |
| Controller.QuietExactlyOnBenignExit | contracts/integer-key/integer-key.py:151-160 | At most one line is printed. No line is printed exactly when nothing was raised, or when the exit status is 0 or below. `-h` prints nothing and submits nothing. |
| Controller.MalformedAttestationReported | contracts/integer-key/integer-key.py:123-160 | A command without a message is disburse or exchange. It submits nothing, leaves any binding table unchanged and prints one line naming the attestation fault. |
| Controller.SubmissionExitReported | contracts/integer-key/integer-key.py:80-160 | A `SystemExit` out of `send_to_contract` comes after the one submission, binds nothing, and prints a line exactly when its code is above 0. |
| Controller.UsageErrorReported | contracts/integer-key/integer-key.py:154-156 | A usage error (status 2) submits nothing and prints one line. |

## Left out

- argparse itself is not modelled: its flag prefixes and abbreviations, repeated flags, `--` and option ordering, and the text of its usage and help messages. The model starts from a `Namespace` that records which flags were given. The effect of `parse_args` is a check of that namespace against the schema, ending in exit status 0 for help and exit status 2 for a usage error.
- Decimal.ParseDecimal: the reading of `-v` differs from Python's `int()`. Surrounding whitespace, `_` digit separators and non-ASCII digits are refused, where Python accepts them. In the other direction there is no length limit, while Python 3.11 and later refuse decimal texts of more than 4300 digits.
- `SchemeExpression.ParseExpression`, `nth` and `str` are not part of this model. The attestation arrives already parsed as a sequence of fields, each with its printed text and an optional `"key"` mapping. Out-of-range `nth`, a field whose value is not a list of pairs, and a missing `"key"` become the faults `MissingField`, `NotAMapping` and `NoKey`.
- Asset keys are taken to be strings. The value of `"key"` in a `dict` of arbitrary expressions is not modelled.
- `send_to_contract` is not part of this model. Its effect is the `Reply` parameter and the entry in the submission log. Printing the result, the commit and wait behaviour, and the session `state` handle it receives are left out.
- `send_to_contract` is assumed to raise only an `Exception` or a `SystemExit` with an integer code. Two other outcomes escape `do_integer_key` and are not modelled. A `SystemExit` whose code is `None` or a string makes `se.code > 0` at line 155 raise `TypeError` inside the handler, and the sibling `except Exception` does not catch it. A `KeyboardInterrupt` or another `BaseException` that is not an `Exception` passes both handlers.
- `shlex.split` and `bindings.expand` at line 149 are not modelled. Their result is the `Namespace` parameter, and the raw input appears only as the text named in diagnostics. That line runs before the `try`, so an exception from it, such as the `ValueError` of an unbalanced quote, leaves `do_integer_key`. The model starts after that line.
- Printing and the exception texts are left out. A printed line is a `Diagnostic` holding the input and the fault, not the formatted message.
- `load_commands`, which registers the command on the shell class with `setattr`, is not modelled, because it has no behaviour beyond the registration.
- Quotes and backslashes in keys, owners and agents are not escaped, as in the source. The message is readable back only for quote-free strings (`IntegerKey.MessageDecodes`), and `IntegerKey.UnescapedQuoteCollision` shows what goes wrong otherwise.

=== FILE: controller.dfy ===
/**
 * The controller side of the integer-key command: `__command_integer_key__`
 * submitting the message and writing the binding table, and `do_integer_key`
 * catching every `Exception` and every `SystemExit` with an integer code, and
 * printing one line for each of them except an exit with code 0 or below.
 *
 * `send_to_contract` is not part of this model: a `Reply` parameter says what
 * it returns (or that it raises), and every call to it is recorded in the
 * submission log.
 */
module Controller {
  import opened Wrappers
  import opened IntegerKey

  /** One call of `send_to_contract`: where, what, and the extra parameters. */
  datatype Submission = Submission(
    enclave: Option<string>,
    saveFile: Option<string>,
    message: string,
    quiet: bool,
    wait: bool,
    commit: bool)

  /**
   * What `send_to_contract` does with the submission: returns a result
   * (possibly `None`), raises an `Exception`, or raises `SystemExit` with an
   * integer code. Other exits and other `BaseException`s are not modelled.
   */
  datatype Reply = Answer(result: Option<string>) | Raises | Exits(code: int)

  /** One line `An error occurred processing <input>: <error>`. */
  datatype Diagnostic = Diagnostic(input: string, error: Fault)

  /** Python truthiness of an optional string: present and not empty. */
  predicate Truthy(s: Option<string>)
  {
    s.Some? && s.value != ""
  }

  // ----- what one invocation does, as functions of its input -----

  /** The error a reply raises out of `send_to_contract`, if any. */
  function Outcome(reply: Reply): (r: Option<Fault>)
    ensures r.None? <==> reply.Answer?
    ensures r.Some? && r.value.Exit? <==> reply.Exits?
    ensures reply.Raises? ==> r == Some(SubmitFailed)
    ensures reply.Exits? ==> r == Some(Exit(reply.code))
  {
    match reply
    case Answer(_) => None
    case Raises => Some(SubmitFailed)
    case Exits(code) => Some(Exit(code))
  }

  /** The submissions an invocation makes: none unless the options parse to a subcommand. */
  function Sent(ns: Namespace): (r: seq<Submission>)
    ensures |r| <= 1
    ensures r != [] ==> ParseOptions(ns).Ok? && ParseOptions(ns).value.command.Some?
  {
    match ParseOptions(ns)
    case Err(_) => []
    case Ok(Options(_, None)) => []
    case Ok(Options(s, Some(cmd))) =>
      match Message(cmd)
      case Err(_) => []
      case Ok(message) => [Submission(s.enclave, s.saveFile, message, s.quiet, s.wait, !cmd.Get?)]
  }

  /** The binding table after an invocation: the old one, with at most the given symbol rebound. */
  function Rebind(bindings: map<string, string>, ns: Namespace, reply: Reply): (r: map<string, string>)
    ensures bindings.Keys <= r.Keys
    ensures !reply.Answer? ==> r == bindings
  {
    match ParseOptions(ns)
    case Ok(Options(_, Some(cmd))) =>
      if BindsResult(cmd) && reply.Answer? && Truthy(reply.result) && Truthy(cmd.symbol) then
        bindings[cmd.symbol.value := reply.result.value]
      else bindings
    case _ => bindings
  }

  /** The error an invocation raises, if any: from parsing, from the attestation, or from the submission. */
  function Escape(ns: Namespace, reply: Reply): (r: Option<Fault>)
    ensures Sent(ns) != [] ==> r == Outcome(reply)
    ensures Sent(ns) == [] && r.Some? ==> r.value != SubmitFailed && (r.value.Exit? ==> ParseOptions(ns).Err?)
  {
    match ParseOptions(ns)
    case Err(f) => Some(f)
    case Ok(Options(_, None)) => None
    case Ok(Options(_, Some(cmd))) =>
      match Message(cmd)
      case Err(f) => Some(f)
      case Ok(_) => Outcome(reply)
  }

  /** What `do_integer_key` prints for an error: nothing for an exit with status 0 or below. */
  function Report(input: string, error: Option<Fault>): (r: seq<Diagnostic>)
    ensures |r| <= 1
    ensures r == [] <==> error.None? || (error.value.Exit? && error.value.code <= 0)
    ensures r != [] ==> r == [Diagnostic(input, error.value)]
  {
    match error
    case None => []
    case Some(Exit(code)) => if code > 0 then [Diagnostic(input, Exit(code))] else []
    case Some(f) => [Diagnostic(input, f)]
  }

  /** The interactive controller's state that the integer-key command touches. */
  class Shell {
    var bindings: map<string, string>
    var submissions: seq<Submission>
    var diagnostics: seq<Diagnostic>

    constructor (initial: map<string, string>)
      ensures bindings == initial && submissions == [] && diagnostics == []
    {
      bindings := initial;
      submissions := [];
      diagnostics := [];
    }

    /** `send_to_contract(state, save_file, enclave, message, quiet=, wait=[, commit=False])`. */
    method Send(settings: Settings, message: string, commit: bool, reply: Reply)
      returns (result: Option<string>, raised: Option<Fault>)
      modifies this`submissions
      ensures submissions
           == old(submissions)
              + [Submission(settings.enclave, settings.saveFile, message, settings.quiet, settings.wait, commit)]
      ensures raised == Outcome(reply)
      ensures reply.Answer? ==> result == reply.result
    {
      submissions := submissions
        + [Submission(settings.enclave, settings.saveFile, message, settings.quiet, settings.wait, commit)];
      raised := Outcome(reply);
      result := if reply.Answer? then reply.result else None;
    }

    /** `bindings.bind(symbol, value)`. */
    method Bind(symbol: string, value: string)
      modifies this`bindings
      ensures bindings == old(bindings)[symbol := value]
    {
      bindings := bindings[symbol := value];
    }

    /** `__command_integer_key__(state, bindings, pargs)`, with `pargs` already parsed into `ns`. */
    method CommandIntegerKey(ns: Namespace, reply: Reply) returns (raised: Option<Fault>)
      modifies this
      ensures submissions == old(submissions) + Sent(ns)
      ensures bindings == Rebind(old(bindings), ns, reply)
      ensures diagnostics == old(diagnostics)
      ensures raised == Escape(ns, reply)
    {
      var parsed := ParseOptions(ns);
      if parsed.Err? {
        return Some(parsed.error);
      }
      var settings := parsed.value.settings;
      var commit := true;
      match parsed.value.command {
        case None =>
          // no subcommand: every branch is skipped
          return None;
        case Some(cmd) =>
          if cmd.Get? {
            commit := false;
          }
          var message := Message(cmd);
          if message.Err? {
            return Some(message.error);
          }
          var result, failed := Send(settings, message.value, commit, reply);
          if failed.Some? {
            return failed;
          }
          if BindsResult(cmd) && Truthy(result) && Truthy(cmd.symbol) {
            Bind(cmd.symbol.value, result.value);
          }
          return None;
      }
    }

    /**
     * The `try` of `do_integer_key(self, args)`, once `args` is split into `ns`:
     * no `Exception` and no `SystemExit` with an integer code leaves it, and
     * each one prints at most one line.
     */
    method DoIntegerKey(input: string, ns: Namespace, reply: Reply)
      modifies this
      ensures submissions == old(submissions) + Sent(ns)
      ensures bindings == Rebind(old(bindings), ns, reply)
      ensures diagnostics == old(diagnostics) + Report(input, Escape(ns, reply))
    {
      var raised := CommandIntegerKey(ns, reply);
      match raised {
        case None =>
        case Some(Exit(code)) =>
          if code > 0 {
            diagnostics := diagnostics + [Diagnostic(input, Exit(code))];
          }
        case Some(f) =>
          diagnostics := diagnostics + [Diagnostic(input, f)];
      }
    }
  }

  // ----- properties of an invocation -----

  /** A recognised subcommand whose message can be built is submitted exactly once; nothing else is submitted. */
  lemma AtMostOneSubmission(ns: Namespace)
    ensures |Sent(ns)| <= 1
    ensures |Sent(ns)| == 1 <==>
      ParseOptions(ns).Ok? && ParseOptions(ns).value.command.Some?
      && Message(ParseOptions(ns).value.command.value).Ok?
  {
  }

  /** The submission carries the command's message and the shared flags; only `get` skips the commit. */
  lemma SubmissionContents(ns: Namespace, cmd: Command)
    requires ParseOptions(ns).Ok? && ParseOptions(ns).value.command == Some(cmd)
    requires Message(cmd).Ok?
    ensures Sent(ns) == [Submission(ns.enclave, ns.saveFile, Message(cmd).value, ns.quiet, ns.wait, Sent(ns)[0].commit)]
    ensures !Sent(ns)[0].commit <==> cmd.Get?
  {
  }

  /**
   * A binding changes only for `get_signing_key` and `attestation`, only at
   * the given symbol and only to a non-empty result; when both the result
   * and the symbol are non-empty it does change.
   */
  lemma BindingRule(bindings: map<string, string>, ns: Namespace, reply: Reply)
    ensures bindings.Keys <= Rebind(bindings, ns, reply).Keys
    ensures forall x :: x in Rebind(bindings, ns, reply) && (x !in bindings || Rebind(bindings, ns, reply)[x] != bindings[x]) ==>
      && ParseOptions(ns).Ok?
      && ParseOptions(ns).value.command.Some?
      && BindsResult(ParseOptions(ns).value.command.value)
      && ParseOptions(ns).value.command.value.symbol == Some(x)
      && reply == Answer(Some(Rebind(bindings, ns, reply)[x]))
      && Rebind(bindings, ns, reply)[x] != ""
      && x != ""
    ensures forall cmd, x, r ::
      ParseOptions(ns).Ok? && ParseOptions(ns).value.command == Some(cmd) && BindsResult(cmd)
      && cmd.symbol == Some(x) && x != "" && reply == Answer(Some(r)) && r != ""
      ==> Rebind(bindings, ns, reply) == bindings[x := r]
  {
  }

  /**
   * No error binds anything. An error while the submission answers came
   * before it, so nothing was submitted; an error with something submitted
   * is the one `send_to_contract` raised.
   */
  lemma NoPartialApplication(bindings: map<string, string>, ns: Namespace, reply: Reply)
    ensures Escape(ns, reply).Some? ==> Rebind(bindings, ns, reply) == bindings
    ensures Escape(ns, reply).Some? && reply.Answer? ==> Sent(ns) == []
    ensures Escape(ns, reply).Some? && Sent(ns) != [] ==> Escape(ns, reply) == Outcome(reply)
    ensures Escape(ns, reply) == Some(SubmitFailed) ==> |Sent(ns)| == 1 && reply.Raises?
  {
  }

  /** Without a subcommand nothing is submitted, bound or raised. */
  lemma NoSubcommandNoEffect(bindings: map<string, string>, ns: Namespace, reply: Reply)
    requires !ns.help && ns.command.None? && Given(ns) == {}
    ensures Sent(ns) == [] && Rebind(bindings, ns, reply) == bindings && Escape(ns, reply).None?
  {
  }

  /** `do_integer_key` prints one line exactly for the errors other than an exit with status 0 or below. */
  lemma QuietExactlyOnBenignExit(input: string, ns: Namespace, reply: Reply)
    ensures |Report(input, Escape(ns, reply))| <= 1
    ensures Report(input, Escape(ns, reply)) == [] <==>
      Escape(ns, reply).None? || (Escape(ns, reply).value.Exit? && Escape(ns, reply).value.code <= 0)
    ensures ns.help ==> Report(input, Escape(ns, reply)) == [] && Sent(ns) == []
  {
  }

  /** An attestation that does not yield a message submits nothing and prints one line naming the fault. */
  lemma MalformedAttestationReported(
    input: string, bindings: map<string, string>, ns: Namespace, reply: Reply, cmd: Command)
    requires ParseOptions(ns).Ok? && ParseOptions(ns).value.command == Some(cmd)
    requires Message(cmd).Err?
    ensures cmd.Disburse? || cmd.Exchange?
    ensures Sent(ns) == [] && Rebind(bindings, ns, reply) == bindings
    ensures Report(input, Escape(ns, reply)) == [Diagnostic(input, Message(cmd).error)]
  {
  }

  /**
   * A `SystemExit` out of `send_to_contract` follows the submission, binds
   * nothing, and prints a line only for a code above 0.
   */
  lemma SubmissionExitReported(input: string, bindings: map<string, string>, ns: Namespace, code: int)
    requires Sent(ns) != []
    ensures Escape(ns, Exits(code)) == Some(Exit(code))
    ensures Rebind(bindings, ns, Exits(code)) == bindings
    ensures Report(input, Escape(ns, Exits(code))) == (if code > 0 then [Diagnostic(input, Exit(code))] else [])
  {
  }

  /** A usage error (status 2) submits nothing and prints one line. */
  lemma UsageErrorReported(input: string, ns: Namespace, reply: Reply)
    requires ParseOptions(ns) == Err(Exit(USAGE_ERROR))
    ensures Sent(ns) == []
    ensures Report(input, Escape(ns, reply)) == [Diagnostic(input, Exit(USAGE_ERROR))]
  {
  }
}

=== FILE: decimal.dfy ===
/**
 * Decimal text of integers: `str(n)` / `"{0}".format(n)` for a Python int,
 * and the reading of `-v` by argparse's `type=int` restricted to an optional
 * sign followed by ASCII digits.
 */
module Decimal {
  import opened Wrappers

  predicate IsDigit(c: char) { '0' <= c <= '9' }

  predicate AllDigits(s: string) { forall i :: 0 <= i < |s| ==> IsDigit(s[i]) }

  function DigitValue(c: char): (d: nat)
    requires IsDigit(c)
    ensures d < 10
  {
    c as int - '0' as int
  }

  function DigitChar(d: nat): (c: char)
    requires d < 10
    ensures IsDigit(c) && DigitValue(c) == d
  {
    ('0' as int + d) as char
  }

  /** Shortest decimal text of a natural number: at least one digit, no leading zero. */
  function NatToDecimal(n: nat): (s: string)
    ensures |s| >= 1 && AllDigits(s)
    ensures s[0] == '0' <==> n == 0
    decreases n
  {
    if n < 10 then [DigitChar(n)] else NatToDecimal(n / 10) + [DigitChar(n % 10)]
  }

  /** Python's `str(n)`: a minus sign for negative numbers, then the digits of |n|. */
  function IntToDecimal(n: int): (s: string)
    ensures |s| >= 1
    ensures s[0] == '-' <==> n < 0
    ensures AllDigits(if n < 0 then s[1..] else s)
  {
    if n < 0 then "-" + NatToDecimal(-n) else NatToDecimal(n)
  }

  /** The value of a string of digits, most significant first. */
  function DigitsValue(s: string): nat
    requires AllDigits(s)
  {
    if s == [] then 0 else DigitsValue(s[..|s| - 1]) * 10 + DigitValue(s[|s| - 1])
  }

  /** An optional sign followed by at least one digit; anything else is refused. */
  function ParseDecimal(s: string): (r: Option<int>)
    ensures r.Some? ==> s != [] && (r.value < 0 ==> s[0] == '-')
  {
    if |s| > 0 && (s[0] == '-' || s[0] == '+') then
      var digits := s[1..];
      if digits != [] && AllDigits(digits) then
        var magnitude: int := DigitsValue(digits);
        Some(if s[0] == '-' then -magnitude else magnitude)
      else None
    else if s != [] && AllDigits(s) then Some(DigitsValue(s))
    else None
  }

  /** A text that IntToDecimal could have produced. */
  predicate Canonical(s: string)
  {
    if |s| > 0 && s[0] == '-' then
      |s| > 1 && AllDigits(s[1..]) && s[1] != '0'
    else
      s != [] && AllDigits(s) && (s[0] == '0' ==> |s| == 1)
  }

  lemma {:induction false} DigitsOfNat(n: nat)
    ensures DigitsValue(NatToDecimal(n)) == n
    decreases n
  {
    if n >= 10 {
      var s := NatToDecimal(n);
      var prefix := NatToDecimal(n / 10);
      assert s[..|s| - 1] == prefix;
      DigitsOfNat(n / 10);
    }
  }

  lemma {:induction false} LeadingDigitBound(s: string)
    requires s != [] && AllDigits(s)
    ensures DigitsValue(s) >= DigitValue(s[0])
  {
    if |s| > 1 {
      LeadingDigitBound(s[..|s| - 1]);
    }
  }

  lemma {:induction false} NatOfDigits(s: string)
    requires s != [] && AllDigits(s) && (s[0] == '0' ==> |s| == 1)
    ensures NatToDecimal(DigitsValue(s)) == s
    decreases |s|
  {
    if |s| > 1 {
      var prefix := s[..|s| - 1];
      LeadingDigitBound(prefix);
      NatOfDigits(prefix);
      var n := DigitsValue(s);
      assert n / 10 == DigitsValue(prefix) && n % 10 == DigitValue(s[|s| - 1]);
      assert DigitChar(n % 10) == s[|s| - 1];
      assert s == prefix + [s[|s| - 1]];
    } else {
      assert s[..0] == [];
      assert DigitsValue(s) == DigitValue(s[0]);
    }
  }

  /** Reading back the text of any integer gives that integer. */
  lemma DecimalRoundTrip(n: int)
    ensures ParseDecimal(IntToDecimal(n)) == Some(n)
    ensures Canonical(IntToDecimal(n))
  {
    var s := IntToDecimal(n);
    if n < 0 {
      assert s[1..] == NatToDecimal(-n);
      DigitsOfNat(-n);
    } else {
      DigitsOfNat(n);
    }
  }

  /** Every canonical text is the text of the integer it denotes. */
  lemma CanonicalRoundTrip(s: string)
    requires Canonical(s)
    ensures ParseDecimal(s).Some? && IntToDecimal(ParseDecimal(s).value) == s
  {
    if s[0] == '-' {
      var digits := s[1..];
      NatOfDigits(digits);
      LeadingDigitBound(digits);
      assert s == "-" + digits;
    } else {
      NatOfDigits(s);
    }
  }
}

=== FILE: integer_key.dfy ===
/**
 * The integer-key subcommands: the options each one accepts, the typed
 * command argparse leaves behind, and the message each command sends to the
 * contract (`__command_integer_key__` in contracts/integer-key/integer-key.py).
 */
module IntegerKey {
  import opened Wrappers
  import Decimal
  import opened Protocol

  /**
   * One positional field of a parsed attestation expression: its printed
   * text (`str(field)`) and, when its value is a list of pairs, the mapping
   * `dict(field.value)` builds from it.
   */
  datatype Field = Field(text: string, entries: Option<map<string, string>>)

  /** What the expression parser makes of the text given with `-a`. */
  datatype Attestation = Unparsable | Parsed(fields: seq<Field>)

  /** A subcommand with its options, as argparse leaves them. */
  datatype Command =
    | GetSigningKey(symbol: Option<string>)
    | Create(key: string, value: int)
    | Inc(key: string, value: int)
    | Dec(key: string, value: int)
    | Get(key: string)
    | Transfer(key: string, owner: string)
    | Escrow(key: string, agent: string)
    | EscrowAttestation(key: string, symbol: Option<string>)
    | Disburse(attestation: Attestation)
    | Exchange(attestation: Attestation)

  /** Why an invocation stopped: a `SystemExit`, or an exception. */
  datatype Fault =
    | Exit(code: int)          // SystemExit raised by argparse or by `send_to_contract`
    | BadExpression            // the attestation text is not an expression
    | MissingField(index: nat) // the attestation has no field at this position
    | NotAMapping(index: nat)  // the field's value is not a list of pairs
    | NoKey(index: nat)        // the field's mapping has no "key" entry
    | SubmitFailed             // the submission itself raised

  /** The argparse namespace: every flag of every subcommand, `None` when not given. */
  datatype Namespace = Namespace(
    help: bool,
    enclave: Option<string>,
    saveFile: Option<string>,
    quiet: bool,
    wait: bool,
    command: Option<string>,
    key: Option<string>,
    value: Option<string>,
    owner: Option<string>,
    agent: Option<string>,
    symbol: Option<string>,
    attestation: Option<Attestation>)

  /** The options shared by every subcommand. */
  datatype Settings = Settings(enclave: Option<string>, saveFile: Option<string>, quiet: bool, wait: bool)

  /** A successful parse: the shared options and the subcommand, if one was named. */
  datatype Options = Options(settings: Settings, command: Option<Command>)

  /** The status argparse exits with on a usage error. */
  const USAGE_ERROR := 2

  /** The subcommands registered with `add_parser`. */
  datatype Subcommand =
    | SigningKeySub | CreateSub | IncSub | DecSub | GetSub
    | TransferSub | EscrowSub | AttestationSub | DisburseSub | ExchangeSub

  /** The subcommand flags: `-k`, `-v`, `-o`, `-a` (escrow agent), `-s`, `-a` (attestation). */
  datatype Flag = KeyFlag | ValueFlag | OwnerFlag | AgentFlag | SymbolFlag | AttestationFlag

  /** The name each subcommand is registered under with `add_parser`. */
  function SubcommandName(sub: Subcommand): string
  {
    match sub
    case SigningKeySub => "get_signing_key"
    case CreateSub => "create"
    case IncSub => "inc"
    case DecSub => "dec"
    case GetSub => "get"
    case TransferSub => "transfer"
    case EscrowSub => "escrow"
    case AttestationSub => "attestation"
    case DisburseSub => "disburse"
    case ExchangeSub => "exchange"
  }

  /** argparse's choice among the subcommand names: the inverse of `SubcommandName`. */
  function Lookup(name: string): Option<Subcommand>
  {
    if name == "get_signing_key" then Some(SigningKeySub)
    else if name == "create" then Some(CreateSub)
    else if name == "inc" then Some(IncSub)
    else if name == "dec" then Some(DecSub)
    else if name == "get" then Some(GetSub)
    else if name == "transfer" then Some(TransferSub)
    else if name == "escrow" then Some(EscrowSub)
    else if name == "attestation" then Some(AttestationSub)
    else if name == "disburse" then Some(DisburseSub)
    else if name == "exchange" then Some(ExchangeSub)
    else None
  }

  /** The flags a subcommand accepts. */
  function Accepted(sub: Subcommand): set<Flag>
  {
    match sub
    case SigningKeySub => {SymbolFlag}
    case CreateSub | IncSub | DecSub => {KeyFlag, ValueFlag}
    case GetSub => {KeyFlag}
    case TransferSub => {KeyFlag, OwnerFlag}
    case EscrowSub => {KeyFlag, AgentFlag}
    case AttestationSub => {KeyFlag, SymbolFlag}
    case DisburseSub | ExchangeSub => {AttestationFlag}
  }

  /** The flags a subcommand declares `required=True`. */
  function Required(sub: Subcommand): set<Flag>
  {
    match sub
    case SigningKeySub => {}
    case CreateSub | GetSub | AttestationSub => {KeyFlag}
    case IncSub | DecSub => {KeyFlag, ValueFlag}
    case TransferSub => {KeyFlag, OwnerFlag}
    case EscrowSub => {KeyFlag, AgentFlag}
    case DisburseSub | ExchangeSub => {AttestationFlag}
  }

  /** The subcommand flags present in the namespace. */
  function Given(ns: Namespace): set<Flag>
  {
    (if ns.key.Some? then {KeyFlag} else {})
    + (if ns.value.Some? then {ValueFlag} else {})
    + (if ns.owner.Some? then {OwnerFlag} else {})
    + (if ns.agent.Some? then {AgentFlag} else {})
    + (if ns.symbol.Some? then {SymbolFlag} else {})
    + (if ns.attestation.Some? then {AttestationFlag} else {})
  }

  function SettingsOf(ns: Namespace): Settings
  {
    Settings(ns.enclave, ns.saveFile, ns.quiet, ns.wait)
  }

  /** `type=int` on `-v`. */
  function IntArg(text: string): (r: Result<int, Fault>)
    ensures r.Ok? <==> Decimal.ParseDecimal(text).Some?
    ensures r.Ok? ==> r.value == Decimal.ParseDecimal(text).value
    ensures r.Err? ==> r.error == Exit(USAGE_ERROR)
  {
    match Decimal.ParseDecimal(text)
    case Some(v) => Ok(v)
    case None => Err(Exit(USAGE_ERROR))
  }

  /** The typed command of a subcommand given all its required flags; `-v` of `create` defaults to 0. */
  function Build(sub: Subcommand, ns: Namespace): (r: Result<Command, Fault>)
    requires Required(sub) <= Given(ns)
    ensures r.Ok? ==> SubcommandOf(r.value) == sub
    ensures r.Err? ==> r.error == Exit(USAGE_ERROR) && sub in {CreateSub, IncSub, DecSub} && ns.value.Some?
                       && Decimal.ParseDecimal(ns.value.value).None?
    ensures r.Ok? <==> !(sub in {CreateSub, IncSub, DecSub} && ns.value.Some? && Decimal.ParseDecimal(ns.value.value).None?)
    ensures r.Ok? && sub in {CreateSub, IncSub, DecSub} ==>
      r.value.key == ns.key.value
      && r.value.value == (if ns.value.None? then 0 else Decimal.ParseDecimal(ns.value.value).value)
  {
    match sub
    case SigningKeySub => Ok(GetSigningKey(ns.symbol))
    case CreateSub =>
      if ns.value.None? then Ok(Create(ns.key.value, 0))
      else var v :- IntArg(ns.value.value); Ok(Create(ns.key.value, v))
    case IncSub => var v :- IntArg(ns.value.value); Ok(Inc(ns.key.value, v))
    case DecSub => var v :- IntArg(ns.value.value); Ok(Dec(ns.key.value, v))
    case GetSub => Ok(Get(ns.key.value))
    case TransferSub => Ok(Transfer(ns.key.value, ns.owner.value))
    case EscrowSub => Ok(Escrow(ns.key.value, ns.agent.value))
    case AttestationSub => Ok(EscrowAttestation(ns.key.value, ns.symbol))
    case DisburseSub => Ok(Disburse(ns.attestation.value))
    case ExchangeSub => Ok(Exchange(ns.attestation.value))
  }

  /**
   * `parser.parse_args(pargs)`: help exits with status 0; an unknown
   * subcommand, a flag the subcommand does not accept, a missing required
   * flag or a `-v` that is not an integer exit with status 2. No subcommand
   * at all is accepted.
   */
  function ParseOptions(ns: Namespace): (r: Result<Options, Fault>)
    ensures ns.help ==> r == Err(Exit(0))
    ensures r.Err? ==> r.error.Exit? && (r.error.code == 0 <==> ns.help) && (r.error.code != 0 ==> r.error.code == USAGE_ERROR)
    ensures r.Ok? ==> r.value.settings == SettingsOf(ns) && (r.value.command.None? <==> ns.command.None?)
    ensures r.Ok? && r.value.command.None? ==> Given(ns) == {}
    ensures r.Ok? && r.value.command.Some? ==>
      var sub := SubcommandOf(r.value.command.value);
      ns.command == Some(SubcommandName(sub)) && Required(sub) <= Given(ns) <= Accepted(sub)
  {
    if ns.help then Err(Exit(0))
    else match ns.command
      case None =>
        if Given(ns) == {} then Ok(Options(SettingsOf(ns), None)) else Err(Exit(USAGE_ERROR))
      case Some(name) =>
        match Lookup(name)
        case None => Err(Exit(USAGE_ERROR))
        case Some(sub) =>
          if !(Given(ns) <= Accepted(sub)) || !(Required(sub) <= Given(ns)) then Err(Exit(USAGE_ERROR))
          else
            var cmd :- Build(sub, ns);
            Ok(Options(SettingsOf(ns), Some(cmd)))
  }

  /** The subcommand a command comes from. */
  function SubcommandOf(cmd: Command): Subcommand
  {
    match cmd
    case GetSigningKey(_) => SigningKeySub
    case Create(_, _) => CreateSub
    case Inc(_, _) => IncSub
    case Dec(_, _) => DecSub
    case Get(_) => GetSub
    case Transfer(_, _) => TransferSub
    case Escrow(_, _) => EscrowSub
    case EscrowAttestation(_, _) => AttestationSub
    case Disburse(_) => DisburseSub
    case Exchange(_) => ExchangeSub
  }

  /** A namespace that names the options given, with `-v` written in decimal. */
  function Unparse(opts: Options): Namespace
  {
    var s := opts.settings;
    var none := Namespace(false, s.enclave, s.saveFile, s.quiet, s.wait, None, None, None, None, None, None, None);
    match opts.command
    case None => none
    case Some(cmd) =>
      var named := none.(command := Some(SubcommandName(SubcommandOf(cmd))));
      match cmd
      case GetSigningKey(symbol) => named.(symbol := symbol)
      case Create(k, v) => named.(key := Some(k), value := Some(Decimal.IntToDecimal(v)))
      case Inc(k, v) => named.(key := Some(k), value := Some(Decimal.IntToDecimal(v)))
      case Dec(k, v) => named.(key := Some(k), value := Some(Decimal.IntToDecimal(v)))
      case Get(k) => named.(key := Some(k))
      case Transfer(k, o) => named.(key := Some(k), owner := Some(o))
      case Escrow(k, a) => named.(key := Some(k), agent := Some(a))
      case EscrowAttestation(k, symbol) => named.(key := Some(k), symbol := symbol)
      case Disburse(att) => named.(attestation := Some(att))
      case Exchange(att) => named.(attestation := Some(att))
  }

  /** `attestation.nth(i)`. */
  function NthField(att: Attestation, i: nat): (r: Result<Field, Fault>)
    ensures r.Ok? <==> att.Parsed? && i < |att.fields|
    ensures r.Ok? ==> r.value == att.fields[i]
    ensures r.Err? ==> r.error == (if att.Parsed? then MissingField(i) else BadExpression)
  {
    match att
    case Unparsable => Err(BadExpression)
    case Parsed(fields) => if i < |fields| then Ok(fields[i]) else Err(MissingField(i))
  }

  /** `dict(attestation.nth(i).value)['key']`. */
  function AssetKey(att: Attestation, i: nat): (r: Result<string, Fault>)
    ensures r.Ok? <==> att.Parsed? && i < |att.fields| && HasKey(att.fields[i])
    ensures r.Ok? ==> r.value == att.fields[i].entries.value["key"]
  {
    var field :- NthField(att, i);
    match field.entries
    case None => Err(NotAMapping(i))
    case Some(entries) => if "key" in entries then Ok(entries["key"]) else Err(NoKey(i))
  }

  /** `str(attestation.nth(i))`. */
  function FieldText(att: Attestation, i: nat): (r: Result<string, Fault>)
    ensures r.Ok? <==> att.Parsed? && i < |att.fields|
    ensures r.Ok? ==> r.value == att.fields[i].text
  {
    var field :- NthField(att, i);
    Ok(field.text)
  }

  /** The operation and arguments each command sends. */
  function Request(cmd: Command): (r: Result<Call, Fault>)
    ensures r.Err? ==> cmd.Disburse? || cmd.Exchange?
    ensures r.Err? ==> r.error.BadExpression? || r.error.MissingField? || r.error.NotAMapping? || r.error.NoKey?
  {
    match cmd
    case GetSigningKey(_) => Ok(Call("get-public-signing-key", []))
    case Create(k, v) => Ok(Call("create", [Str(k), Num(v)]))
    case Inc(k, v) => Ok(Call("inc", [Str(k), Num(v)]))
    case Dec(k, v) => Ok(Call("dec", [Str(k), Num(v)]))
    case Get(k) => Ok(Call("get-value", [Str(k)]))
    case Transfer(k, o) => Ok(Call("transfer-ownership", [Str(k), Str(o)]))
    case Escrow(k, a) => Ok(Call("escrow", [Str(k), Str(a)]))
    case EscrowAttestation(k, _) => Ok(Call("escrow-attestation", [Str(k)]))
    case Disburse(att) =>
      var assetKey :- AssetKey(att, 0);
      var dependencies :- FieldText(att, 1);
      var signature :- FieldText(att, 2);
      Ok(Call("disburse", [Str(assetKey), Raw(dependencies), Raw(signature)]))
    case Exchange(att) =>
      var offered :- AssetKey(att, 0);
      var maxBid :- AssetKey(att, 1);
      var dependencies :- FieldText(att, 2);
      var signature :- FieldText(att, 3);
      Ok(Call("exchange-ownership", [Str(offered), Str(maxBid), Raw(dependencies), Raw(signature)]))
  }

  /** The message text submitted for a command. */
  function Message(cmd: Command): (r: Result<string, Fault>)
    ensures r.Ok? <==> Request(cmd).Ok?
    ensures r.Ok? ==> |r.value| >= 3 && r.value[..2] == "'(" && r.value[|r.value| - 1] == ')'
  {
    var call :- Request(cmd);
    Ok(Render(call))
  }

  /** The commands whose result may be bound to a symbol. */
  predicate BindsResult(cmd: Command)
  {
    cmd.GetSigningKey? || cmd.EscrowAttestation?
  }

  /** No string argument holds a double quote, so the unescaped quoting is unambiguous. */
  predicate QuoteFree(cmd: Command)
  {
    match cmd
    case Create(k, _) => '"' !in k
    case Inc(k, _) => '"' !in k
    case Dec(k, _) => '"' !in k
    case Get(k) => '"' !in k
    case Transfer(k, o) => '"' !in k && '"' !in o
    case Escrow(k, a) => '"' !in k && '"' !in a
    case EscrowAttestation(k, _) => '"' !in k
    case _ => true
  }

  /** The command with its binding symbol dropped: what the message can carry. */
  function Unbound(cmd: Command): Command
  {
    match cmd
    case GetSigningKey(_) => GetSigningKey(None)
    case EscrowAttestation(k, _) => EscrowAttestation(k, None)
    case _ => cmd
  }

  /** The field's value is a mapping with a "key" entry. */
  predicate HasKey(f: Field)
  {
    f.entries.Some? && "key" in f.entries.value
  }

  // ----- the message templates -----

  // The opening of each template, with the operation name written in.

  lemma OpeningCreate()
    ensures "'(" + "create" + " \"" == "'(create \""
  {
  }

  lemma OpeningInc()
    ensures "'(" + "inc" + " \"" == "'(inc \""
  {
  }

  lemma OpeningDec()
    ensures "'(" + "dec" + " \"" == "'(dec \""
  {
  }

  lemma OpeningGetValue()
    ensures "'(" + "get-value" + " \"" == "'(get-value \""
  {
  }

  lemma OpeningTransfer()
    ensures "'(" + "transfer-ownership" + " \"" == "'(transfer-ownership \""
  {
  }

  lemma OpeningEscrow()
    ensures "'(" + "escrow" + " \"" == "'(escrow \""
  {
  }

  lemma OpeningEscrowAttestation()
    ensures "'(" + "escrow-attestation" + " \"" == "'(escrow-attestation \""
  {
  }

  lemma OpeningDisburse()
    ensures "'(" + "disburse" + " \"" == "'(disburse \""
  {
  }

  lemma OpeningExchange()
    ensures "'(" + "exchange-ownership" + " \"" == "'(exchange-ownership \""
  {
  }

  lemma OpeningSigningKey()
    ensures "'(" + "get-public-signing-key" + ")" == "'(get-public-signing-key)"
  {
  }

  /** The message of a command whose request succeeds is the rendered call. */
  lemma MessageOfRequest(cmd: Command, call: Call)
    requires Request(cmd) == Ok(call)
    ensures Message(cmd) == Ok(Render(call))
  {
  }

  lemma ValueTemplate(cmd: Command, op: string, k: string, v: int)
    requires cmd == Create(k, v) || cmd == Inc(k, v) || cmd == Dec(k, v)
    requires op == (if cmd.Create? then "create" else if cmd.Inc? then "inc" else "dec")
    ensures Message(cmd) == Ok(("'(" + op + " \"") + k + "\" " + Decimal.IntToDecimal(v) + ")")
  {
    MessageOfRequest(cmd, Call(op, [Str(k), Num(v)]));
    QuotedNum(op, k, v);
  }

  lemma ValueTemplates(k: string, v: int)
    ensures Message(Create(k, v)) == Ok("'(create \"" + k + "\" " + Decimal.IntToDecimal(v) + ")")
    ensures Message(Inc(k, v)) == Ok("'(inc \"" + k + "\" " + Decimal.IntToDecimal(v) + ")")
    ensures Message(Dec(k, v)) == Ok("'(dec \"" + k + "\" " + Decimal.IntToDecimal(v) + ")")
  {
    OpeningCreate(); OpeningInc(); OpeningDec();
    ValueTemplate(Create(k, v), "create", k, v);
    ValueTemplate(Inc(k, v), "inc", k, v);
    ValueTemplate(Dec(k, v), "dec", k, v);
  }

  lemma SigningKeyTemplate(symbol: Option<string>)
    ensures Message(GetSigningKey(symbol)) == Ok("'(get-public-signing-key)")
  {
    MessageOfRequest(GetSigningKey(symbol), Call("get-public-signing-key", []));
    RenderNone("get-public-signing-key");
    OpeningSigningKey();
  }

  lemma GetTemplate(k: string)
    ensures Message(Get(k)) == Ok("'(get-value \"" + k + "\")")
  {
    MessageOfRequest(Get(k), Call("get-value", [Str(k)]));
    QuotedOne("get-value", k);
    OpeningGetValue();
  }

  lemma TransferTemplate(k: string, owner: string)
    ensures Message(Transfer(k, owner)) == Ok("'(transfer-ownership \"" + k + "\" \"" + owner + "\")")
  {
    MessageOfRequest(Transfer(k, owner), Call("transfer-ownership", [Str(k), Str(owner)]));
    QuotedTwo("transfer-ownership", k, owner);
    OpeningTransfer();
  }

  lemma EscrowTemplate(k: string, agent: string)
    ensures Message(Escrow(k, agent)) == Ok("'(escrow \"" + k + "\" \"" + agent + "\")")
  {
    MessageOfRequest(Escrow(k, agent), Call("escrow", [Str(k), Str(agent)]));
    QuotedTwo("escrow", k, agent);
    OpeningEscrow();
  }

  lemma EscrowAttestationTemplate(k: string, symbol: Option<string>)
    ensures Message(EscrowAttestation(k, symbol)) == Ok("'(escrow-attestation \"" + k + "\")")
  {
    MessageOfRequest(EscrowAttestation(k, symbol), Call("escrow-attestation", [Str(k)]));
    QuotedOne("escrow-attestation", k);
    OpeningEscrowAttestation();
  }

  /**
   * `disburse` quotes the "key" entry of field 0 and splices the text of
   * fields 1 and 2; without any of them there is no message.
   */
  lemma DisburseTemplate(att: Attestation)
    ensures Message(Disburse(att)).Ok? <==> att.Parsed? && |att.fields| >= 3 && HasKey(att.fields[0])
    ensures Message(Disburse(att)).Ok? ==>
      Message(Disburse(att)).value
        == "'(disburse \"" + att.fields[0].entries.value["key"] + "\" "
           + att.fields[1].text + " " + att.fields[2].text + ")"
  {
    if att.Parsed? && |att.fields| >= 3 && HasKey(att.fields[0]) {
      var fs := att.fields;
      var k, deps, sig := fs[0].entries.value["key"], fs[1].text, fs[2].text;
      MessageOfRequest(Disburse(att), Call("disburse", [Str(k), Raw(deps), Raw(sig)]));
      QuotedRawTwo("disburse", k, deps, sig);
      OpeningDisburse();
    }
  }

  /** `exchange` needs a "key" entry in fields 0 and 1 and text in fields 2 and 3. */
  lemma ExchangeSucceeds(att: Attestation)
    ensures Message(Exchange(att)).Ok? <==>
      att.Parsed? && |att.fields| >= 4 && HasKey(att.fields[0]) && HasKey(att.fields[1])
  {
  }

  /**
   * `exchange` quotes the "key" entries of fields 0 and 1 and splices the
   * text of fields 2 and 3.
   */
  lemma ExchangeTemplate(att: Attestation)
    requires att.Parsed? && |att.fields| >= 4 && HasKey(att.fields[0]) && HasKey(att.fields[1])
    ensures Message(Exchange(att))
         == Ok("'(exchange-ownership \"" + att.fields[0].entries.value["key"] + "\" \""
               + att.fields[1].entries.value["key"] + "\" " + att.fields[2].text + " " + att.fields[3].text + ")")
  {
    var fs := att.fields;
    var offered, maxBid := fs[0].entries.value["key"], fs[1].entries.value["key"];
    var deps, sig := fs[2].text, fs[3].text;
    ExchangeRequest(att);
    MessageOfRequest(Exchange(att), Call("exchange-ownership", [Str(offered), Str(maxBid), Raw(deps), Raw(sig)]));
    ExchangeText(offered, maxBid, deps, sig);
  }

  /** The text of an `exchange-ownership` call. */
  lemma ExchangeText(offered: string, maxBid: string, deps: string, sig: string)
    ensures Render(Call("exchange-ownership", [Str(offered), Str(maxBid), Raw(deps), Raw(sig)]))
         == "'(exchange-ownership \"" + offered + "\" \"" + maxBid + "\" " + deps + " " + sig + ")"
  {
    QuotedTwoRawTwo("exchange-ownership", offered, maxBid, deps, sig);
    OpeningExchange();
  }

  /** The call `exchange` builds from a well-formed attestation. */
  lemma ExchangeRequest(att: Attestation)
    requires att.Parsed? && |att.fields| >= 4 && HasKey(att.fields[0]) && HasKey(att.fields[1])
    ensures Request(Exchange(att))
         == Ok(Call("exchange-ownership", [Str(att.fields[0].entries.value["key"]), Str(att.fields[1].entries.value["key"]),
                                           Raw(att.fields[2].text), Raw(att.fields[3].text)]))
  {
    assert AssetKey(att, 0) == Ok(att.fields[0].entries.value["key"]);
    assert AssetKey(att, 1) == Ok(att.fields[1].entries.value["key"]);
    assert FieldText(att, 2) == Ok(att.fields[2].text) && FieldText(att, 3) == Ok(att.fields[3].text);
  }

  // ----- what the message text determines -----

  lemma OperationsHaveNoSpace()
    ensures ' ' !in "get-public-signing-key" && ' ' !in "create" && ' ' !in "inc" && ' ' !in "dec"
    ensures ' ' !in "get-value" && ' ' !in "transfer-ownership" && ' ' !in "escrow"
    ensures ' ' !in "escrow-attestation"
  {
  }

  /** The call of a command other than disburse and exchange, with plain arguments when its strings are quote-free. */
  lemma RequestReadable(cmd: Command)
    requires !cmd.Disburse? && !cmd.Exchange? && QuoteFree(cmd)
    ensures Request(cmd).Ok? && Readable(Request(cmd).value)
  {
    OperationsHaveNoSpace();
    match cmd {
      case GetSigningKey(_) =>
      case Create(k, v) => assert Request(cmd).value.args == [Str(k), Num(v)];
      case Inc(k, v) => assert Request(cmd).value.args == [Str(k), Num(v)];
      case Dec(k, v) => assert Request(cmd).value.args == [Str(k), Num(v)];
      case Get(k) => assert Request(cmd).value.args == [Str(k)];
      case Transfer(k, o) => assert Request(cmd).value.args == [Str(k), Str(o)];
      case Escrow(k, a) => assert Request(cmd).value.args == [Str(k), Str(a)];
      case EscrowAttestation(k, _) => assert Request(cmd).value.args == [Str(k)];
    }
  }

  /** A command whose strings hold no double quote can be read back from its message. */
  lemma MessageDecodes(cmd: Command)
    requires !cmd.Disburse? && !cmd.Exchange? && QuoteFree(cmd)
    ensures Request(cmd).Ok? && Message(cmd) == Ok(Render(Request(cmd).value))
    ensures Parse(Message(cmd).value) == Some(Request(cmd).value)
  {
    RequestReadable(cmd);
    ParseRender(Request(cmd).value);
  }

  /** Two such commands with the same message differ at most in their binding symbol. */
  lemma MessageInjective(c1: Command, c2: Command)
    requires !c1.Disburse? && !c1.Exchange? && QuoteFree(c1)
    requires !c2.Disburse? && !c2.Exchange? && QuoteFree(c2)
    requires Message(c1) == Message(c2)
    ensures Unbound(c1) == Unbound(c2)
  {
    MessageDecodes(c1);
    MessageDecodes(c2);
    assert Request(c1) == Request(c2);
  }

  /**
   * Without escaping, the text `" "` inside a key moves what follows it into
   * the owner: two different transfers send the same message.
   */
  lemma UnescapedQuoteCollision(a: string, b: string, c: string)
    ensures Transfer(a + "\" \"" + b, c) != Transfer(a, b + "\" \"" + c)
    ensures Message(Transfer(a + "\" \"" + b, c)) == Message(Transfer(a, b + "\" \"" + c))
  {
    var sep := "\" \"";
    assert |a + sep + b| > |a|;
    TransferTemplate(a + sep + b, c);
    TransferTemplate(a, b + sep + c);
    var open, close := "'(transfer-ownership \"", "\")";
    calc {
      open + (a + sep + b) + sep + c + close;
      { Assoc(open, a + sep, b); Assoc(open, a, sep); }
      open + a + sep + b + sep + c + close;
      { Assoc(open + a + sep, b + sep, c); Assoc(open + a + sep, b, sep); }
      open + a + sep + (b + sep + c) + close;
    }
  }

  // ----- the options schema -----

  /** Each subcommand is found under its own name. */
  lemma LookupName(sub: Subcommand)
    ensures Lookup(SubcommandName(sub)) == Some(sub)
  {
  }

  /** The names argparse accepts are exactly the ten subcommand names. */
  lemma LookupSubcommands(name: string)
    ensures Lookup(name).Some? <==> exists sub :: SubcommandName(sub) == name
    ensures Lookup(name).Some? ==> SubcommandName(Lookup(name).value) == name
  {
  }

  /** A command written out as options is built back by its subcommand. */
  lemma BuildUnparse(s: Settings, cmd: Command)
    ensures Required(SubcommandOf(cmd)) <= Given(Unparse(Options(s, Some(cmd))))
    ensures Given(Unparse(Options(s, Some(cmd)))) <= Accepted(SubcommandOf(cmd))
    ensures Build(SubcommandOf(cmd), Unparse(Options(s, Some(cmd)))) == Ok(cmd)
  {
    UnparseFlags(s, cmd);
    match cmd {
      case Create(_, v) => Decimal.DecimalRoundTrip(v);
      case Inc(_, v) => Decimal.DecimalRoundTrip(v);
      case Dec(_, v) => Decimal.DecimalRoundTrip(v);
      case _ =>
    }
  }

  /**
   * The flags written out for a command are those its subcommand requires,
   * plus `-v` of `create` and a `-s` that was given.
   */
  lemma UnparseFlags(s: Settings, cmd: Command)
    ensures Given(Unparse(Options(s, Some(cmd))))
         == Required(SubcommandOf(cmd)) + (if cmd.Create? then {ValueFlag} else {})
            + (if BindsResult(cmd) && cmd.symbol.Some? then {SymbolFlag} else {})
  {
    var ns := Unparse(Options(s, Some(cmd)));
    match cmd {
      case GetSigningKey(symbol) =>
        assert Given(ns) == {} + {} + {} + {} + (if symbol.Some? then {SymbolFlag} else {}) + {};
      case Create(_, _) => assert Given(ns) == {KeyFlag} + {ValueFlag} + {} + {} + {} + {};
      case Inc(_, _) => assert Given(ns) == {KeyFlag} + {ValueFlag} + {} + {} + {} + {};
      case Dec(_, _) => assert Given(ns) == {KeyFlag} + {ValueFlag} + {} + {} + {} + {};
      case Get(_) => assert Given(ns) == {KeyFlag} + {} + {} + {} + {} + {};
      case Transfer(_, _) => assert Given(ns) == {KeyFlag} + {} + {OwnerFlag} + {} + {} + {};
      case Escrow(_, _) => assert Given(ns) == {KeyFlag} + {} + {} + {AgentFlag} + {} + {};
      case EscrowAttestation(_, symbol) =>
        assert Given(ns) == {KeyFlag} + {} + {} + {} + (if symbol.Some? then {SymbolFlag} else {}) + {};
      case Disburse(_) => assert Given(ns) == {} + {} + {} + {} + {} + {AttestationFlag};
      case Exchange(_) => assert Given(ns) == {} + {} + {} + {} + {} + {AttestationFlag};
    }
  }

  /** Every parse result survives being written out as options and parsed again. */
  lemma ParseUnparse(opts: Options)
    ensures ParseOptions(Unparse(opts)) == Ok(opts)
  {
    var ns := Unparse(opts);
    UnparseShared(opts);
    if opts.command.Some? {
      var cmd := opts.command.value;
      var sub := SubcommandOf(cmd);
      LookupName(sub);
      BuildUnparse(opts.settings, cmd);
      assert Build(sub, ns) == Ok(cmd);
    } else {
      assert Given(ns) == {};
    }
  }

  /** What the written-out options say apart from the subcommand flags. */
  lemma UnparseShared(opts: Options)
    ensures !Unparse(opts).help && SettingsOf(Unparse(opts)) == opts.settings
    ensures Unparse(opts).command
         == (if opts.command.None? then None else Some(SubcommandName(SubcommandOf(opts.command.value))))
  {
  }

  /** Every subcommand but `get_signing_key`, `disburse` and `exchange` exits with status 2 without `-k`. */
  lemma KeyIsRequired(ns: Namespace, sub: Subcommand)
    requires !ns.help && ns.command == Some(SubcommandName(sub)) && ns.key.None?
    requires sub !in {SigningKeySub, DisburseSub, ExchangeSub}
    ensures ParseOptions(ns) == Err(Exit(USAGE_ERROR))
  {
    LookupName(sub);
  }

  /** `inc` and `dec` exit with status 2 without `-v`. */
  lemma ValueIsRequired(ns: Namespace, sub: Subcommand)
    requires !ns.help && ns.command == Some(SubcommandName(sub)) && ns.value.None?
    requires sub == IncSub || sub == DecSub
    ensures ParseOptions(ns) == Err(Exit(USAGE_ERROR))
  {
    LookupName(sub);
  }

  /** `create` without `-v` creates the key with value 0. */
  lemma CreateValueDefaultsToZero(ns: Namespace, k: string)
    requires !ns.help && ns.command == Some("create") && Given(ns) == {KeyFlag} && ns.key == Some(k)
    ensures ParseOptions(ns) == Ok(Options(SettingsOf(ns), Some(Create(k, 0))))
    ensures Message(Create(k, 0)) == Ok("'(create \"" + k + "\" 0)")
  {
    LookupName(CreateSub);
    assert Decimal.IntToDecimal(0) == "0";
    ValueTemplates(k, 0);
    assert "'(create \"" + k + "\" " + "0" + ")" == "'(create \"" + k + "\" 0)";
  }

  /** `type=int` on `-v`: a value that does not read as an integer exits with status 2. */
  lemma NonIntegerValueRefused(ns: Namespace, sub: Subcommand)
    requires !ns.help && ns.command == Some(SubcommandName(sub))
    requires sub == CreateSub || sub == IncSub || sub == DecSub
    requires ns.value.Some? && Decimal.ParseDecimal(ns.value.value).None?
    ensures ParseOptions(ns) == Err(Exit(USAGE_ERROR))
  {
    LookupName(sub);
  }

  /** A parsed `create`, `inc` or `dec` carries `-k` and the integer `-v` reads as. */
  lemma ParsedValueIsInt(ns: Namespace, cmd: Command)
    requires ParseOptions(ns).Ok? && ParseOptions(ns).value.command == Some(cmd)
    requires cmd.Create? || cmd.Inc? || cmd.Dec?
    ensures ns.key == Some(cmd.key)
    ensures ns.value.Some? ==> Decimal.ParseDecimal(ns.value.value) == Some(cmd.value)
    ensures ns.value.None? ==> cmd.Create? && cmd.value == 0
  {
  }

  /** A name outside the ten subcommands exits with status 2. */
  lemma UnknownSubcommand(ns: Namespace)
    requires !ns.help && ns.command.Some? && forall sub :: SubcommandName(sub) != ns.command.value
    ensures ParseOptions(ns) == Err(Exit(USAGE_ERROR))
  {
    LookupSubcommands(ns.command.value);
  }
}

=== FILE: protocol.dfy ===
/**
 * The textual protocol message the handler sends to the contract: a quoted
 * S-expression `'(op arg ...)` whose string arguments are wrapped in double
 * quotes without any escaping, whose integers are bare decimal, and whose
 * attestation fields are spliced in as the raw text of an expression.
 *
 * `Call` is the structured form, `Render` the text, and `Parse` reads a text
 * back; it only knows string and integer arguments, which is all the
 * round trip needs.
 */
module Protocol {
  import opened Wrappers
  import Decimal

  datatype Atom = Str(s: string) | Num(n: int) | Raw(text: string)

  datatype Call = Call(op: string, args: seq<Atom>)

  /** A string argument as it appears on the wire: between double quotes, unescaped. */
  function Quote(s: string): string { "\"" + s + "\"" }

  function RenderAtom(a: Atom): string
  {
    match a
    case Str(s) => Quote(s)
    case Num(n) => Decimal.IntToDecimal(n)
    case Raw(text) => text
  }

  /** Every argument preceded by one space. */
  function RenderArgs(args: seq<Atom>): string
  {
    if args == [] then "" else " " + RenderAtom(args[0]) + RenderArgs(args[1..])
  }

  /** The message text: `'(`, the operation, the arguments, `)`. */
  function Render(c: Call): (r: string)
    ensures |r| >= 3 && r[..2] == "'(" && r[|r| - 1] == ')'
  {
    "'(" + c.op + RenderArgs(c.args) + ")"
  }

  lemma RenderArgsCons(a: Atom, rest: seq<Atom>)
    ensures RenderArgs([a] + rest) == " " + RenderAtom(a) + RenderArgs(rest)
  {
    assert ([a] + rest)[1..] == rest;
  }

  // The text of the arguments and of a call, for a fixed number of arguments.

  lemma ArgsOne(a: Atom)
    ensures RenderArgs([a]) == " " + RenderAtom(a)
  {
    RenderArgsCons(a, []);
    assert [a] + [] == [a];
  }

  lemma ArgsTwo(a: Atom, b: Atom)
    ensures RenderArgs([a, b]) == " " + RenderAtom(a) + " " + RenderAtom(b)
  {
    ArgsOne(b);
    RenderArgsCons(a, [b]);
    assert [a] + [b] == [a, b];
    Assoc(" " + RenderAtom(a), " ", RenderAtom(b));
  }

  lemma ArgsThree(a: Atom, b: Atom, c: Atom)
    ensures RenderArgs([a, b, c]) == " " + RenderAtom(a) + " " + RenderAtom(b) + " " + RenderAtom(c)
  {
    var ra, rb, rc := RenderAtom(a), RenderAtom(b), RenderAtom(c);
    ArgsTwo(b, c);
    RenderArgsCons(a, [b, c]);
    assert [a] + [b, c] == [a, b, c];
    var x := " " + ra;
    Assoc(x, " " + rb + " ", rc);
    Assoc(x, " " + rb, " ");
    Assoc(x, " ", rb);
  }

  lemma Assoc(x: string, y: string, z: string)
    ensures x + (y + z) == x + y + z
  {
  }

  lemma ArgsFour(a: Atom, b: Atom, c: Atom, d: Atom)
    ensures RenderArgs([a, b, c, d])
         == " " + RenderAtom(a) + " " + RenderAtom(b) + " " + RenderAtom(c) + " " + RenderAtom(d)
  {
    var ra, rb, rc, rd := RenderAtom(a), RenderAtom(b), RenderAtom(c), RenderAtom(d);
    ArgsThree(b, c, d);
    RenderArgsCons(a, [b, c, d]);
    assert [a] + [b, c, d] == [a, b, c, d];
    var x := " " + ra;
    Assoc(x, " " + rb + " " + rc + " ", rd);
    Assoc(x, " " + rb + " " + rc, " ");
    Assoc(x, " " + rb + " ", rc);
    Assoc(x, " " + rb, " ");
    Assoc(x, " ", rb);
  }

  lemma RenderNone(op: string)
    ensures Render(Call(op, [])) == "'(" + op + ")"
  {
  }

  lemma RenderOne(op: string, a: Atom)
    ensures Render(Call(op, [a])) == "'(" + op + " " + RenderAtom(a) + ")"
  {
    ArgsOne(a);
  }

  lemma RenderTwo(op: string, a: Atom, b: Atom)
    ensures Render(Call(op, [a, b])) == "'(" + op + " " + RenderAtom(a) + " " + RenderAtom(b) + ")"
  {
    ArgsTwo(a, b);
  }

  lemma RenderThree(op: string, a: Atom, b: Atom, c: Atom)
    ensures Render(Call(op, [a, b, c]))
         == "'(" + op + " " + RenderAtom(a) + " " + RenderAtom(b) + " " + RenderAtom(c) + ")"
  {
    var ra, rb, rc := RenderAtom(a), RenderAtom(b), RenderAtom(c);
    ArgsThree(a, b, c);
    var x := "'(" + op;
    Assoc(x, " " + ra + " " + rb + " ", rc);
    Assoc(x, " " + ra + " " + rb, " ");
    Assoc(x, " " + ra + " ", rb);
    Assoc(x, " " + ra, " ");
    Assoc(x, " ", ra);
  }

  lemma RenderFour(op: string, a: Atom, b: Atom, c: Atom, d: Atom)
    ensures Render(Call(op, [a, b, c, d]))
         == "'(" + op + " " + RenderAtom(a) + " " + RenderAtom(b) + " " + RenderAtom(c) + " " + RenderAtom(d) + ")"
  {
    var ra, rb, rc, rd := RenderAtom(a), RenderAtom(b), RenderAtom(c), RenderAtom(d);
    ArgsFour(a, b, c, d);
    var x := "'(" + op;
    Assoc(x, " " + ra + " " + rb + " " + rc + " ", rd);
    Assoc(x, " " + ra + " " + rb + " " + rc, " ");
    Assoc(x, " " + ra + " " + rb + " ", rc);
    Assoc(x, " " + ra + " " + rb, " ");
    Assoc(x, " " + ra + " ", rb);
    Assoc(x, " " + ra, " ");
    Assoc(x, " ", ra);
  }

  // The same texts with the quotes of the string arguments written into the template.

  lemma QuotedOne(op: string, k: string)
    ensures Render(Call(op, [Str(k)])) == ("'(" + op + " \"") + k + "\")"
  {
    RenderOne(op, Str(k));
  }

  lemma QuotedTwo(op: string, k: string, o: string)
    ensures Render(Call(op, [Str(k), Str(o)])) == ("'(" + op + " \"") + k + "\" \"" + o + "\")"
  {
    RenderTwo(op, Str(k), Str(o));
  }

  lemma QuotedNum(op: string, k: string, v: int)
    ensures Render(Call(op, [Str(k), Num(v)])) == ("'(" + op + " \"") + k + "\" " + Decimal.IntToDecimal(v) + ")"
  {
    RenderTwo(op, Str(k), Num(v));
  }

  lemma QuotedRawTwo(op: string, k: string, x: string, y: string)
    ensures Render(Call(op, [Str(k), Raw(x), Raw(y)])) == ("'(" + op + " \"") + k + "\" " + x + " " + y + ")"
  {
    RenderThree(op, Str(k), Raw(x), Raw(y));
  }

  lemma QuotedTwoRawTwo(op: string, k: string, o: string, x: string, y: string)
    ensures Render(Call(op, [Str(k), Str(o), Raw(x), Raw(y)]))
         == ("'(" + op + " \"") + k + "\" \"" + o + "\" " + x + " " + y + ")"
  {
    RenderFour(op, Str(k), Str(o), Raw(x), Raw(y));
  }

  /** Position of the first `c` in `s`, or `|s|` when there is none. */
  function IndexOf(s: string, c: char): (i: nat)
    ensures i <= |s|
    ensures i < |s| ==> s[i] == c
    ensures forall k :: 0 <= k < i ==> s[k] != c
  {
    if s == [] || s[0] == c then 0 else 1 + IndexOf(s[1..], c)
  }

  /** Reads one argument at the front of `s`: `"text"` up to the next quote, or a decimal
      up to the next space; gives the argument and the number of characters it took. */
  function ParseAtom(s: string): (r: Option<(Atom, nat)>)
    ensures r.Some? ==> 0 < r.value.1 <= |s|
  {
    if s == [] then None
    else if s[0] == '"' then
      var j := IndexOf(s[1..], '"');
      if j == |s| - 1 then None else Some((Str(s[1..j + 1]), j + 2))
    else
      var j := IndexOf(s, ' ');
      if j == 0 then None
      else
        match Decimal.ParseDecimal(s[..j])
        case None => None
        case Some(n) => Some((Num(n), j))
  }

  /** Reads the arguments of a message body: each is ` "text"` or ` <decimal>`. */
  function ParseArgs(s: string): Option<seq<Atom>>
    decreases |s|
  {
    if s == [] then Some([])
    else if s[0] != ' ' then None
    else
      match ParseAtom(s[1..])
      case None => None
      case Some((atom, used)) =>
        var more :- ParseArgs(s[1 + used..]);
        Some([atom] + more)
  }

  /** One argument read by `ParseAtom` in front of arguments already read. */
  lemma ParseArgsStep(token: string, atom: Atom, tail: string, more: seq<Atom>)
    requires ParseAtom(token + tail) == Some((atom, |token|))
    requires ParseArgs(tail) == Some(more)
    ensures ParseArgs(" " + token + tail) == Some([atom] + more)
  {
    var s := " " + token + tail;
    assert s[1..] == token + tail;
    assert s[1 + |token|..] == tail;
  }

  /** Reads a whole message `'(op args)`; the operation name runs to the first space. */
  function Parse(text: string): Option<Call>
  {
    if |text| < 3 || text[..2] != "'(" || text[|text| - 1] != ')' then None
    else
      var body := text[2..|text| - 1];
      var i := IndexOf(body, ' ');
      var args :- ParseArgs(body[i..]);
      Some(Call(body[..i], args))
  }

  /** An argument that the unescaped quoting can carry: a string without a double quote, or an integer. */
  predicate Plain(a: Atom)
  {
    match a
    case Str(s) => '"' !in s
    case Num(_) => true
    case Raw(_) => false
  }

  /** A call whose text determines it: an operation name without spaces and plain arguments. */
  predicate Readable(c: Call)
  {
    ' ' !in c.op && forall a :: a in c.args ==> Plain(a)
  }

  lemma FirstAfterPrefix(a: string, b: string, c: char)
    requires c !in a
    requires b == [] || b[0] == c
    ensures IndexOf(a + b, c) == |a|
  {
    assert forall k :: 0 <= k < |a| ==> (a + b)[k] == a[k];
    assert b != [] ==> (a + b)[|a|] == c;
  }

  /** One quoted string argument in front of arguments already read. */
  lemma ParseStrArg(x: string, tail: string, more: seq<Atom>)
    requires '"' !in x
    requires ParseArgs(tail) == Some(more)
    ensures ParseArgs(" " + Quote(x) + tail) == Some([Str(x)] + more)
  {
    var s := Quote(x) + tail;
    assert s[1..] == x + ("\"" + tail);
    FirstAfterPrefix(x, "\"" + tail, '"');
    assert s[1..|x| + 1] == x;
    assert ParseAtom(s) == Some((Str(x), |Quote(x)|));
    ParseArgsStep(Quote(x), Str(x), tail, more);
  }

  lemma DecimalHasNoSeparator(n: int)
    ensures ' ' !in Decimal.IntToDecimal(n) && Decimal.IntToDecimal(n)[0] != '"'
  {
    var digits := Decimal.IntToDecimal(n);
    if n < 0 {
      assert forall k :: 1 <= k < |digits| ==> digits[k] == digits[1..][k - 1];
    }
  }

  /** One decimal argument in front of arguments already read. */
  lemma ParseNumArg(digits: string, n: int, tail: string, more: seq<Atom>)
    requires digits != [] && digits[0] != '"' && ' ' !in digits
    requires Decimal.ParseDecimal(digits) == Some(n)
    requires tail == [] || tail[0] == ' '
    requires ParseArgs(tail) == Some(more)
    ensures ParseArgs(" " + digits + tail) == Some([Num(n)] + more)
  {
    var s := digits + tail;
    FirstAfterPrefix(digits, tail, ' ');
    assert s[..|digits|] == digits;
    assert ParseAtom(s) == Some((Num(n), |digits|));
    ParseArgsStep(digits, Num(n), tail, more);
  }

  lemma {:induction false} ParseRenderArgs(args: seq<Atom>)
    requires forall a :: a in args ==> Plain(a)
    ensures ParseArgs(RenderArgs(args)) == Some(args)
    decreases |args|
  {
    if args != [] {
      var tail := RenderArgs(args[1..]);
      assert args[1..] != [] ==> tail[0] == ' ';
      ParseRenderArgs(args[1..]);
      assert Plain(args[0]) by { assert args[0] in args; }
      assert [args[0]] + args[1..] == args;
      match args[0]
      case Str(x) =>
        ParseStrArg(x, tail, args[1..]);
      case Num(n) =>
        DecimalHasNoSeparator(n);
        Decimal.DecimalRoundTrip(n);
        ParseNumArg(Decimal.IntToDecimal(n), n, tail, args[1..]);
    }
  }

  /** A readable call is recovered from its text. */
  lemma ParseRender(c: Call)
    requires Readable(c)
    ensures Parse(Render(c)) == Some(c)
  {
    var text := Render(c);
    var args := RenderArgs(c.args);
    assert text[..2] == "'(";
    assert text[2..|text| - 1] == c.op + args;
    assert c.args != [] ==> args[0] == ' ';
    FirstAfterPrefix(c.op, args, ' ');
    assert (c.op + args)[..|c.op|] == c.op;
    assert (c.op + args)[|c.op|..] == args;
    ParseRenderArgs(c.args);
  }
}

=== FILE: wrappers.dfy ===
/** Failure-compatible wrappers used throughout the model. */
module Wrappers {

  /** An optional value; Python's `None` is `None`. */
  datatype Option<+T> = None | Some(value: T) {
    predicate IsFailure() { None? }

    function PropagateFailure<U>(): Option<U>
      requires None?
    {
      None
    }

    function Extract(): T
      requires Some?
    {
      value
    }
  }

  /** A value or the error that stopped its computation. */
  datatype Result<+T, +E> = Ok(value: T) | Err(error: E) {
    predicate IsFailure() { Err? }

    function PropagateFailure<U>(): Result<U, E>
      requires Err?
    {
      Err(error)
    }

    function Extract(): T
      requires Ok?
    {
      value
    }
  }
}
